=== FILE: README.md ===
# QR code styling core, modelled in Dafny

This project models the logic of the Flask QR-code generator in `app.py`
that surrounds its calls to the `qrcode` and PIL libraries:

- the **colour resolver** (`hex_to_rgb`, `hex_to_rgba`, and the colour and
  transparency resolution at the start of `generate_qr_code`);
- **`safe_int`**, integer conversion with a default;
- **style selection**: the module drawer for `dot_shape`, the eye drawer for
  `eye_shape`, the colour mask for `gradient_type`;
- **logo geometry**: the box the logo is shrunk into and the paste position
  for the five position names;
- the **payload formatter** that turns `qr_type` and the raw content into
  the encoded string, including the MECARD record built in a loop for
  multilink content;
- `generate_qr_code` as a whole, as a rendering plan that holds the encoded
  data, the symbol size and the styling;
- the `preview` and `download` handlers, with the session and the upload
  folder they share, as a class whose methods update both. It is proved
  that a download renders exactly what the preview before it rendered when
  that preview uploaded its own logo or no earlier logo file is left. It is
  also proved that otherwise the download draws the earlier logo, which the
  preview did not show.

Library objects (drawers, masks) are tags in datatypes. Three things are
parameters: the encoder's choice of symbol version, with its failure on
data that fits no version; JSON decoding; and, per logo file, whether the
imaging library can open it and shrink it into a box of a given side, and
the size it then has.

Files: `wrappers.dfy` (Option, Result), `color.dfy` (module
`ColorResolver`), `safe_int.dfy` (`IntParsing`), `style.dfy`
(`StyleSelection`), `logo.dfy` (`LogoGeometry`), `payload.dfy`
(`PayloadFormatter`), `pipeline.dfy` (`QrPipeline`).

In these places the code behaves differently from what one might expect,
and the model follows the code:

- Colours are not limited to 3 or 6 digits. Any stripped length other than
  0, 1, 2 and 4 can succeed. Length 5 reads its third component from one
  digit. Characters after the sixth are ignored.
- The logo is not scaled so that its longest side equals the percentage of
  the symbol. `thumbnail` only shrinks it into a box of that side. So the
  box side is modelled, and the logo's own size is an input.
- An unknown `logo_position` is not a default. When a logo is present it
  aborts the render, because `position` is never bound.
- A `logo_size` that is not a numeral is not the default 20 but 0, the
  default of `safe_int` (app.py:182). With a logo present, the box then has
  side 0, and `thumbnail` (Pillow 9.1 and later, the releases that have
  `Image.Resampling`) divides the box's width by its height and raises
  ZeroDivisionError. A negative `logo_size` gives a negative box, which the
  resize refuses with ValueError. Any file that has a name is saved as a logo, and one
  that is not an image makes `Image.open` raise (app.py:115).
- `safe_int` gives the default for a numeral of more than 4300 digits,
  because `int()` refuses it.
- A malformed `bg_color`, `gradient_start` or `gradient_end` aborts the
  render even when its value is never used: a transparent background, or a
  solid fill.
- `preview` sets `logo_filename` in the session only when a logo is
  uploaded, and never clears it (app.py:188-198). `download` draws the file
  named there whenever it exists (app.py:242-247). So after a preview with
  a logo, a second preview without one is followed by a download that draws
  the first logo. With an unknown position, a logo size of 0 or less or a stale file
  that is not an image, that download even aborts although the preview
  succeeded.
- A preview whose render fails has already saved the upload and recorded
  its name, but keeps the earlier request in the session. Whether that
  recorded name survives depends on Flask's error handling, as "## Left
  out" explains.

## Model

| member | source | states |
|---|---|---|
| `ColorResolver.StripHashes` | app.py:24 | the result is a suffix of the input, everything removed was '#', and the result does not start with '#' |
| `ColorResolver.Doubled` | app.py:26 | twice the length, character i of the result is character i/2 of the input |
| `ColorResolver.Expand` | app.py:25-26 | a 3-character string becomes 6 characters, character i being character i/2 of the input; any other length is kept |
| `ColorResolver.Slice` | app.py:27 | Python's clamped slice `s[i:i+2]`: its length is 2, the rest of the string, or 0 past the end, and its characters are those of s from i |
| `ColorResolver.DigitsValue` | app.py:27 | the base-16 value of n hex digits is below 16^n |
| `ColorResolver.ParseHex` | app.py:27 | `int(s, 16)` succeeds exactly on non-empty hex-digit strings, with a value below 16^len |
| `ColorResolver.Component` | app.py:27 | one component reads exactly when its slice parses, with the slice's value, below 256; otherwise the error names that slice |
| `ColorResolver.ReadTriple` | app.py:27 | succeeds exactly when the slices at 0, 2 and 4 all parse, giving their three values; a failure names an empty or non-hex slice |
| `ColorResolver.HexToRgb` | app.py:22-27 | `hex_to_rgb`: success is always an RGB triple in 0..255; a failure names the empty or non-hex slice |
| `ColorResolver.HexToRgba` | app.py:29-32 | `hex_to_rgba` succeeds exactly when `hex_to_rgb` does, with the same components and the given alpha appended |
| `ColorResolver.ShortFormIsDoubled` | app.py:24-26 | a colour with 3 characters after stripping resolves exactly as its 6-character doubled form |
| `ColorResolver.ShortFormValue` | app.py:25-27 | "#xyz" of hex digits gives components 17·x, 17·y, 17·z |
| `ColorResolver.FirstSixOnly` | app.py:27 | with 6 or more characters after stripping, only the first six matter |
| `ColorResolver.ShortLengthsFail` | app.py:27 | stripped lengths 0, 1, 2 and 4 always fail, whatever the characters |
| `ColorResolver.HexDigitsSucceed` | app.py:24-27 | on hex digits a colour resolves iff its stripped length is not 0, 1, 2 or 4; length 5 reads blue from one digit |
| `ColorResolver.NonHexFails` | app.py:24-27 | a non-hex character among the first six after stripping makes the conversion fail, as `int(..., 16)` raises ValueError |
| `ColorResolver.ReadsExactly` | app.py:22-27 | a colour converts exactly when its stripped length is not 0, 1, 2 or 4 and the characters read, at most six, are hex digits |
| `ColorResolver.FormatHexRoundTrip` | app.py:22-27 | every triple in 0..255, written "#rrggbb", resolves back to itself |
| `ColorResolver.ResolveColors` | app.py:55-63 | succeeds iff all four colour strings (defaults when missing) parse; background is (0,0,0,0) when transparent, else the parsed bg; fg and gradient ends are the parsed ones |
| `ColorResolver.DefaultColors` | app.py:55-63 | missing colours give black foreground, white background, gradient black to white |
| `ColorResolver.TransparencyIgnoresBackground` | app.py:56-60 | with transparency, any two parseable background strings give the same resolution |
| `ColorResolver.MalformedColorAborts` | app.py:55-63 | a malformed background or gradient colour aborts, with or without transparency |
| `IntParsing.IsNumeral` | app.py:37 | what `int()` accepts here: an optional sign, then one to 4300 ASCII digits |
| `IntParsing.NumeralValue` | app.py:37 | a numeral's value is its digits' decimal value, negated exactly after '-' |
| `IntParsing.SafeInt` | app.py:34-39 | never fails: `None` and non-numeral text (more than 4300 digits included) give the default, an int is returned unchanged |
| `IntParsing.SafeIntRoundTrip` | app.py:34-39 | the decimal text of any int of at most 4300 digits, signed or not, converts back to that int; a longer one gives the default |
| `IntParsing.SignedDigits` | app.py:36-39 | digits, bare or after '-' or '+', convert to their signed value exactly when there are at most 4300 of them, and give the default otherwise |
| `IntParsing.PlusSignIgnored` | app.py:36-37 | an explicit '+' before a numeral does not change the result, within the digit limit and beyond it |
| `IntParsing.LongNumeralFallsBack` | app.py:36-39 | any string of more than 4300 digits, 4301 ones for instance, gives the default |
| `IntParsing.NonNumeralsFallBack` | app.py:36-39 | "abc", "", "20.5", "-" and `None` give the default |
| `StyleSelection.ModuleDrawerFor` | app.py:66-76 | circle, rounded, vertical and horizontal each select their drawer exactly for their own name; all else, missing included, is square |
| `StyleSelection.EyeDrawerFor` | app.py:79-85 | the eye drawer is square, circle or rounded; circle and rounded exactly for their own names |
| `StyleSelection.MaskFor` | app.py:88-102 | "linear" gives a horizontal gradient from start to end, "radial" a radial one from centre start to edge end, else a solid fg fill; the background is always the resolved bg |
| `StyleSelection.DotShapeNamesSelect` | app.py:66-76 | every module drawer is selected by its own name |
| `StyleSelection.EyeShapesAreModuleShapes` | app.py:79-85 | each eye drawer is selected by the same name as the module drawer |
| `StyleSelection.UnknownNamesDefault` | app.py:66-102 | an unknown name selects what a missing name does: square drawers and the solid mask |
| `StyleSelection.EyeAgreesWithModule` | app.py:66-85 | eye and module selection agree on every name except the two bar shapes |
| `LogoGeometry.TruncDiv100` | app.py:120 | `int(x / 100)` rounds toward zero: the result times 100 lies between 0 and x, less than 100 away from x |
| `LogoGeometry.LogoBoxSide` | app.py:120 | the box side is size·percent/100 truncated toward zero, for either sign of the product |
| `LogoGeometry.Inset` | app.py:128 | `qr_size // 10` rounds down: ten times it is at most the size and within 10 of it |
| `LogoGeometry.LogoPosition` | app.py:124-134 | center is centred to within a pixel on each axis; each corner sits `qr_size // 10` from its two edges; any other name fails, naming the position |
| `LogoGeometry.BoxSideNonNegative` | app.py:118-120 | for non-negative sizes the box side is the floor of size·percent/100, and at most 100% keeps it within the symbol |
| `LogoGeometry.BoxSideNegativeTruncates` | app.py:120 | a negative percentage truncates toward zero, not down |
| `LogoGeometry.ZeroBoxOnlyAtZero` | app.py:120 | on a symbol of at least 100 pixels the box side is 0 exactly when the percentage is 0, and 0 or less exactly when the percentage is |
| `LogoGeometry.HalfSizeBox` | app.py:120 | a 50% logo gets a box of half the symbol, rounded down |
| `LogoGeometry.BoxWithinInset` | app.py:120-128 | up to 90% the box fits between the inset and the far edge |
| `LogoGeometry.LogoInsideSymbol` | app.py:118-134 | a logo within its box, at up to 90%, lies inside the symbol at every recognised position |
| `PayloadFormatter.TitleText` | app.py:211 | `link.get('title', 'Link')`: the title when present, "Link" otherwise |
| `PayloadFormatter.UrlText` | app.py:211 | `link.get('url', '')`: the url when present, empty otherwise |
| `PayloadFormatter.Entries` | app.py:209-211 | the appended entries are empty exactly when there are no links |
| `PayloadFormatter.Entry` | app.py:211 | one link's text is as long as its title and url plus the two separators, and ends with ';' |
| `PayloadFormatter.EntryFields` | app.py:211 | one entry is the title, ':', the url and ';', in that order, nothing escaped |
| `PayloadFormatter.HasScheme` | app.py:202 | `startswith(('http://', 'https://'))`: at least 7 characters, "http", then "://" or "s://" |
| `PayloadFormatter.FormatPayload` | app.py:249-265 | url gains "http://" unless it already has a web scheme and always ends up with one; phone gets "tel:"; readable multilink content gives "MECARD:" followed by the entries of its links (none when `links` is missing), unreadable content stays as it is; other types pass through |
| `PayloadFormatter.ComputePayload` | app.py:200-216 | the if/elif block with its appending loop computes exactly the formatted payload |
| `PayloadFormatter.UrlIdempotent` | app.py:201-202 | formatting a URL twice is formatting it once |
| `PayloadFormatter.EntriesAppend` | app.py:209-211 | the record of concatenated link lists is the concatenation of their records |
| `PayloadFormatter.EntriesCons` | app.py:209-211 | the first link's entry comes first, followed by the entries of the rest |
| `PayloadFormatter.TwoLinksExample` | app.py:205-212 | two links A and B give "MECARD:A:http://a;B:http://b;" |
| `PayloadFormatter.MissingKeysDefault` | app.py:210-211 | no `links` key gives "MECARD:"; a link without title or url gives "Link:;" |
| `PayloadFormatter.SeparatorsNotEscaped` | app.py:211 | different links can produce the same record, because nothing is escaped |
| `PayloadFormatter.DecodeRoundTrip` | app.py:209-212 | when no title holds ':' and no url holds ';', the record reads back as the links' titles and urls in order |
| `QrPipeline.SymbolPixelSize` | app.py:44-49 | with box size 10 and border 4, a tenth of the symbol is one pixel per module across |
| `QrPipeline.LogoPercent` | app.py:119 | the logo size is 20 when missing, an int as it is, and 0 for text that is not a numeral |
| `QrPipeline.LogoFor` | app.py:113-114 | a logo is drawn exactly when `logo_path` is set and names a file in the upload folder, and it is that file |
| `QrPipeline.Shrunk` | app.py:115-121 | a box of side 0 or less always fails (ZeroDivisionError in `thumbnail` for 0, ValueError from the resize for a negative side); for a positive side the file decides |
| `QrPipeline.RenderPlan` | app.py:41-152 | data that fits no version aborts first, then a malformed colour; with the logo file present, a file that cannot be opened or shrunk into its box (always so for a box of side 0 or less) aborts next, then an unknown position, and nothing else does; a plan holds the data and the pixel side of the fitted version |
| `QrPipeline.PlanFollowsOptions` | app.py:65-150 | a plan holds the selected mask and drawers, a foreground caption exactly for non-empty text, and a logo exactly when its file exists, shrunk into the box for the percentage and pasted where its position name puts it |
| `QrPipeline.NonPositivePercentAborts` | app.py:113-121 | with a logo file present, the box has side 0 exactly at 0% (a non-numeral `logo_size`) and 0 or less exactly at 0% or less, and then the render aborts |
| `QrPipeline.TransparentBackground` | app.py:59-60 | with `transparent_bg` the mask's background is (0,0,0,0) whatever the mask and `bg_color` |
| `QrPipeline.UnusedColorStillAborts` | app.py:55-63 | a malformed background aborts even when transparency and a solid fill hide it |
| `QrPipeline.PositionMattersOnlyWithLogo` | app.py:113-137 | an unknown position is harmless without a logo file and aborts with one, naming the position unless the file could not be opened or shrunk |
| `QrPipeline.DefaultLogoTopLeft` | app.py:118-128 | at 20%, the default or given, a logo that shrinks to within its box is placed top-left at a tenth of the symbol and inside it |
| `QrPipeline.PreviewOptions` | app.py:169-196 | the stored options are the form's, with `logo_size` converted once, which a second conversion leaves alone, and `logo_path` set exactly for an upload |
| `QrPipeline.Generate` | app.py:200-219 | the payload block followed by `generate_qr_code` renders the formatted payload |
| `QrPipeline.Saved` | app.py:189-195 | saving an upload adds its name to the folder with its file and keeps every other file; no upload keeps the folder |
| `QrPipeline.Removed` | app.py:275-279 | removing the session's logo drops exactly that name and keeps every other file |
| `QrPipeline.PreviewSession` | app.py:197-229 | `logo_filename` is replaced only by an upload; the request with the converted options is stored exactly when the render succeeded, else the earlier one stays |
| `QrPipeline.DownloadOptions` | app.py:237-247 | the stored options, with `logo_path` replaced by `logo_filename` exactly when that file exists, and nothing else changed |
| `QrPipeline.Server.constructor` | app.py:19-20 | a new client starts with an empty session and the upload folder as it stands, since `exist_ok=True` keeps what it holds |
| `QrPipeline.Server.Preview` | app.py:162-233 | saves the upload and records its name before rendering, renders the formatted payload with the upload as logo, and stores the request only when the render succeeded |
| `QrPipeline.Server.Download` | app.py:235-286 | renders the stored request with the session's logo file when it exists; a successful render removes that file and clears the session, a failed one changes nothing |
| `QrPipeline.DownloadRepeatsPreview` | app.py:188-268 | after a successful preview that uploaded its logo or left no earlier logo file, the download renders exactly the preview's plan: data, size, styling and logo |
| `QrPipeline.StaleLogoDrawn` | app.py:188-247 | after a preview without an upload, an earlier logo file still in the session is drawn by the download, though the preview drew none; the download aborts instead when that file cannot be opened or shrunk into its box, or when the position is unknown |

## Left out

- Python's `int()` leniencies. In a colour slice, signs, surrounding whitespace and non-ASCII digits are accepted by `int(s, 16)`. In `safe_int` text, surrounding whitespace, underscores between digits and non-ASCII digits are accepted. The model treats all of these as failures. It is faithful on ASCII hex digits and ASCII decimal numerals with an optional sign.
- `IntParsing.SafeInt`: the 4300-digit limit is that of Python 3.11 and later and of the 2022 security releases of 3.7 to 3.10; older interpreters convert numerals of any length. Changing the limit with `sys.set_int_max_str_digits` or `PYTHONINTMAXSTRDIGITS` is not modelled.
- `LogoGeometry.TruncDiv100`: it is exact rational division with truncation. The float division of app.py:120 can round differently when the product exceeds about 2^52. A product beyond the float range makes `qr_size * logo_size / 100` raise OverflowError and abort the render, while the model returns a huge box. `safe_int` accepts numerals of up to 4300 digits, and about 310 are enough, so such a product is reachable.
- `QrPipeline.RenderPlan`: QR encoding is not modelled: version fitting, error-correction level H, module matrices. Which data fit which version, and which fit none and make `qr.make(fit=True)` raise, is the parameter `fit`. Drawing with `StyledPilImage`, the drawers and the masks is not modelled either; they are tags.
- PIL operations are not modelled: decoding the file and `thumbnail` resampling (per logo file, a function supplies the shrunk size for each box side, or says that the library raises; only the failure for a side of 0 or less is fixed by the model), the alpha `paste`, font lookup and its fallback, and the caption's position. Its x depends on the float `textlength`; its y, `img.size[1] - 30`, is an integer that the model also leaves out. The caption model keeps only its text and fill colour.
- JSON decoding in the multilink branch is a parameter. The model does not decide which JSON values the bare `except` rejects, nor how `str()` prints a non-string title or url.
- Flask plumbing is not modelled: routes, templates, reading the form fields (app.py:169-186 except the `logo_size` conversion), generating the uuid name, writing and reading file contents. The upload folder is a map from file name to logo, and a path is its file name, with `os.path.join` left out. The session holds exactly the four keys the handlers use.
- `QrPipeline.Server.Preview`: when the render fails, the model keeps the newly recorded `logo_filename` in the session. That holds only when Flask saves the session for the error response, which it does with debug off. Under `app.run(debug=True)` (app.py:290) the exception propagates before the session is saved, so the name is lost while the file stays in the folder. The model does not capture this dependence on Flask's error handling and debug mode.
- The truthiness tests on `logo_path` and `logo_filename` (app.py:114, 243) are not modelled: the names a preview saves, `logo_<uuid>_<name>`, are never empty.
- `QrPipeline.Server.Download`: with no request stored, the source hands `None` content and an empty options dictionary to the encoder. That path is not modelled: the model returns no plan and changes nothing.
- A missing `content` field (Python `None`) is not modelled. Content is always a string.
- The unused options are not modelled: `inner_eye_color`, `outer_eye_color`, `random_pattern`, `eye_glow`, `logo_frame_style`. Neither are PNG and base64 encoding.

=== FILE: color.dfy ===
/**
 * The colour resolver: `hex_to_rgb`, `hex_to_rgba` and the colour and
 * transparency resolution at the start of `generate_qr_code`.
 *
 * A slice is read as base 16 only when it is non-empty and made of ASCII
 * hex digits; every other slice is the `ValueError` of the source.
 */
module ColorResolver {
  import opened Wrappers

  /** A colour tuple: three components, or four once an alpha is appended. */
  datatype Color = Rgb(r: int, g: int, b: int) | Rgba(r: int, g: int, b: int, a: int)

  /** The slice that could not be read as base 16 (Python's ValueError). */
  datatype ColorError = InvalidHex(slice: string)

  predicate IsHexDigit(c: char)
  {
    '0' <= c <= '9' || 'a' <= c <= 'f' || 'A' <= c <= 'F'
  }

  predicate AllHex(s: string)
  {
    forall i :: 0 <= i < |s| ==> IsHexDigit(s[i])
  }

  function DigitValue(c: char): (v: nat)
    requires IsHexDigit(c)
    ensures v < 16
  {
    if '0' <= c <= '9' then c as int - '0' as int
    else if 'a' <= c <= 'f' then c as int - 'a' as int + 10
    else c as int - 'A' as int + 10
  }

  function Pow16(n: nat): nat
  {
    if n == 0 then 1 else 16 * Pow16(n - 1)
  }

  /** The number a string of hex digits denotes, most significant digit first. */
  function DigitsValue(s: string): (v: nat)
    requires AllHex(s)
    ensures v < Pow16(|s|)
    decreases |s|
  {
    if s == [] then 0
    else
      var v' := DigitsValue(s[..|s| - 1]);
      assert v' * 16 + 15 < Pow16(|s| - 1) * 16 by {
        assert (Pow16(|s| - 1) - 1 - v') * 16 >= 0;
      }
      v' * 16 + DigitValue(s[|s| - 1])
  }

  /** `int(s, 16)` on a slice: defined exactly when the slice is non-empty hex. */
  function ParseHex(s: string): (r: Option<nat>)
    ensures r.Some? <==> s != [] && AllHex(s)
    ensures r.Some? ==> r.value < Pow16(|s|)
  {
    if s != [] && AllHex(s) then Some(DigitsValue(s)) else None
  }

  /** `s.lstrip('#')`: drops every leading '#' and nothing else. */
  function StripHashes(s: string): (t: string)
    ensures |t| <= |s| && t == s[|s| - |t|..]
    ensures forall i :: 0 <= i < |s| - |t| ==> s[i] == '#'
    ensures t == [] || t[0] != '#'
    decreases |s|
  {
    if s != [] && s[0] == '#' then StripHashes(s[1..]) else s
  }

  /** Each character written twice: `''.join([c*2 for c in s])`. */
  function Doubled(s: string): (d: string)
    ensures |d| == 2 * |s|
    ensures forall i :: 0 <= i < |d| ==> d[i] == s[i / 2]
  {
    seq(2 * |s|, i requires 0 <= i < 2 * |s| => s[i / 2])
  }

  /** The short form is expanded; every other length is kept as it is. */
  function Expand(s: string): (e: string)
    ensures |s| == 3 ==> |e| == 6 && forall i :: 0 <= i < 6 ==> e[i] == s[i / 2]
    ensures |s| != 3 ==> e == s
  {
    if |s| == 3 then Doubled(s) else s
  }

  /** `s[i:i+2]`, with Python's clamping of out-of-range bounds. */
  function Slice(s: string, i: nat): (p: string)
    ensures |p| <= 2
    ensures |p| == if i >= |s| then 0 else if i + 2 <= |s| then 2 else |s| - i
    ensures i < |s| ==> p == s[i..i + |p|]
  {
    if i >= |s| then [] else if i + 2 <= |s| then s[i..i + 2] else s[i..]
  }

  /** Reads one component; a failure names the slice that could not be read. */
  function Component(t: string, i: nat): (r: Result<nat, ColorError>)
    ensures r.Ok? <==> ParseHex(Slice(t, i)).Some?
    ensures r.Ok? ==> r.value == ParseHex(Slice(t, i)).value < 256
    ensures r.Err? ==> r.error == InvalidHex(Slice(t, i))
  {
    match ParseHex(Slice(t, i))
    case Some(v) => Ok(v)
    case None => Err(InvalidHex(Slice(t, i)))
  }

  /** Reads the three components of an already stripped and expanded colour. */
  function ReadTriple(t: string): (r: Result<Color, ColorError>)
    ensures r.Ok? <==> ParseHex(Slice(t, 0)).Some? && ParseHex(Slice(t, 2)).Some? && ParseHex(Slice(t, 4)).Some?
    ensures r.Ok? ==>
      r.value == Rgb(ParseHex(Slice(t, 0)).value, ParseHex(Slice(t, 2)).value, ParseHex(Slice(t, 4)).value)
    ensures r.Ok? ==> 0 <= r.value.r < 256 && 0 <= r.value.g < 256 && 0 <= r.value.b < 256
    ensures r.Err? ==> r.error.slice == [] || !AllHex(r.error.slice)
  {
    match Component(t, 0)
    case Err(e) => Err(e)
    case Ok(red) =>
      match Component(t, 2)
      case Err(e) => Err(e)
      case Ok(green) =>
        match Component(t, 4)
        case Err(e) => Err(e)
        case Ok(blue) => Ok(Rgb(red, green, blue))
  }

  /**
   * `hex_to_rgb`: strip the leading '#'s, expand the 3-character form and read
   * the slices at offsets 0, 2 and 4; the first unreadable slice aborts.
   */
  function HexToRgb(color: string): (r: Result<Color, ColorError>)
    ensures r.Ok? ==> r.value.Rgb?
    ensures r.Ok? ==> 0 <= r.value.r < 256 && 0 <= r.value.g < 256 && 0 <= r.value.b < 256
    ensures r.Err? ==> r.error.slice == [] || !AllHex(r.error.slice)
  {
    ReadTriple(Expand(StripHashes(color)))
  }

  /** `hex_to_rgba`: the triple of `hex_to_rgb` with `alpha` appended. */
  function HexToRgba(color: string, alpha: int): (r: Result<Color, ColorError>)
    ensures r.Ok? <==> HexToRgb(color).Ok?
    ensures r.Err? ==> r.error == HexToRgb(color).error
    ensures r.Ok? ==> var c := HexToRgb(color).value;
      r.value == Rgba(c.r, c.g, c.b, alpha)
  {
    match HexToRgb(color)
    case Err(e) => Err(e)
    case Ok(c) => Ok(Rgba(c.r, c.g, c.b, alpha))
  }

  // ---------------------------------------------------------------------
  // Properties of the resolver
  // ---------------------------------------------------------------------

  lemma StripHashesKeeps(s: string)
    requires s == [] || s[0] != '#'
    ensures StripHashes(s) == s
  {
  }

  /** After stripping, a 3-character colour reads exactly as its doubled 6-character form. */
  lemma ShortFormIsDoubled(color: string)
    requires |StripHashes(color)| == 3
    ensures HexToRgb(color) == HexToRgb(Doubled(StripHashes(color)))
  {
    var t := StripHashes(color);
    var d := Doubled(t);
    assert d[0] == t[0];
    StripHashesKeeps(d);
  }

  /** The 3-digit colour "#xyz" has components 17 times its digits. */
  lemma ShortFormValue(digits: string)
    requires |digits| == 3 && AllHex(digits)
    ensures HexToRgb("#" + digits)
         == Ok(Rgb(17 * DigitValue(digits[0]), 17 * DigitValue(digits[1]), 17 * DigitValue(digits[2])))
  {
    var s := "#" + digits;
    assert s[1..] == digits;
    StripHashesKeeps(digits);
    assert StripHashes(s) == digits;
    var d := Doubled(digits);
    forall k | 0 <= k < 3
      ensures Slice(d, 2 * k) == [digits[k], digits[k]]
    {
    }
    PairValue(digits[0], digits[0]);
    PairValue(digits[1], digits[1]);
    PairValue(digits[2], digits[2]);
  }

  lemma PairValue(a: char, b: char)
    requires IsHexDigit(a) && IsHexDigit(b)
    ensures AllHex([a, b]) && DigitsValue([a, b]) == 16 * DigitValue(a) + DigitValue(b)
  {
    assert [a, b][..1] == [a];
    assert [a][..0] == [];
  }

  /** Only the first six characters after stripping matter. */
  lemma FirstSixOnly(color: string)
    requires |StripHashes(color)| >= 6
    ensures HexToRgb(color) == HexToRgb(StripHashes(color)[..6])
  {
    var t := StripHashes(color);
    var u := t[..6];
    assert u[0] == t[0];
    StripHashesKeeps(u);
    assert HexToRgb(color) == ReadTriple(t);
    assert HexToRgb(u) == ReadTriple(u);
    ReadTriplePrefix(t);
  }

  lemma ReadTriplePrefix(t: string)
    requires |t| >= 6
    ensures ReadTriple(t) == ReadTriple(t[..6])
  {
    var u := t[..6];
    assert Slice(t, 0) == Slice(u, 0);
    assert Slice(t, 2) == Slice(u, 2);
    assert Slice(t, 4) == Slice(u, 4);
    assert Component(t, 0) == Component(u, 0);
    assert Component(t, 2) == Component(u, 2);
    assert Component(t, 4) == Component(u, 4);
  }

  /** Stripped lengths 0, 1, 2 and 4 always fail, whatever the characters: some slice is empty. */
  lemma ShortLengthsFail(color: string)
    requires |StripHashes(color)| in {0, 1, 2, 4}
    ensures HexToRgb(color).Err?
  {
    var t := StripHashes(color);
    assert Expand(t) == t;
    assert Slice(t, 4) == [];
    assert ParseHex(Slice(t, 4)).None?;
  }

  /**
   * On hex-digit input the colour reads exactly when its stripped length is
   * 3, 5 or at least 6; with length 5 the blue component comes from one digit.
   */
  lemma HexDigitsSucceed(color: string)
    requires AllHex(StripHashes(color))
    ensures HexToRgb(color).Ok? <==> |StripHashes(color)| !in {0, 1, 2, 4}
    ensures |StripHashes(color)| == 5 ==>
      var t := StripHashes(color);
      HexToRgb(color) == Ok(Rgb(DigitsValue(t[0..2]), DigitsValue(t[2..4]), DigitValue(t[4])))
  {
    var t := StripHashes(color);
    if |t| in {0, 1, 2, 4} {
      ShortLengthsFail(color);
    } else if |t| == 3 {
      DoubledHex(t);
      HexTripleReads(Doubled(t));
    } else if |t| == 5 {
      HexTripleReads(t);
      FiveDigitBlue(t);
    } else {
      HexTripleReads(t);
    }
  }

  lemma DoubledHex(t: string)
    requires AllHex(t)
    ensures AllHex(Doubled(t))
  {
    var d := Doubled(t);
    forall i | 0 <= i < |d| ensures IsHexDigit(d[i]) { assert d[i] == t[i / 2]; }
  }

  /** Hex digits of length at least 5 read as the values of their three slices. */
  lemma HexTripleReads(e: string)
    requires AllHex(e) && |e| >= 5
    ensures ReadTriple(e) == Ok(Rgb(DigitsValue(Slice(e, 0)), DigitsValue(Slice(e, 2)), DigitsValue(Slice(e, 4))))
  {
    SliceOfHex(e, 0);
    SliceOfHex(e, 2);
    SliceOfHex(e, 4);
  }

  lemma FiveDigitBlue(t: string)
    requires AllHex(t) && |t| == 5
    ensures Slice(t, 0) == t[0..2] && Slice(t, 2) == t[2..4]
    ensures DigitsValue(Slice(t, 4)) == DigitValue(t[4])
  {
    assert Slice(t, 4) == [t[4]];
    assert [t[4]][..0] == [];
  }

  lemma SliceOfHex(e: string, i: nat)
    requires AllHex(e) && i < |e|
    ensures ParseHex(Slice(e, i)) == Some(DigitsValue(Slice(e, i)))
  {
    var p := Slice(e, i);
    forall k | 0 <= k < |p| ensures IsHexDigit(p[k]) { assert p[k] == e[i + k]; }
  }

  /** A character that is not a hex digit among the first six read after stripping aborts the conversion. */
  lemma NonHexFails(color: string, k: nat)
    requires k < |StripHashes(color)| && k < 6 && !IsHexDigit(StripHashes(color)[k])
    ensures HexToRgb(color).Err?
  {
    ExpandedNonHexFails(StripHashes(color), k);
  }

  lemma ExpandedNonHexFails(t: string, k: nat)
    requires k < |t| && k < 6 && !IsHexDigit(t[k])
    ensures ReadTriple(Expand(t)).Err?
  {
    var e := Expand(t);
    if |t| == 3 {
      assert e[2 * k] == t[k];
      SliceHoldsNonHex(e, 2 * k, 2 * k);
      ReadTripleFailsAt(e, 2 * k);
    } else {
      SliceHoldsNonHex(e, k - k % 2, k);
      ReadTripleFailsAt(e, k - k % 2);
    }
  }

  lemma ReadTripleFailsAt(e: string, i: nat)
    requires i == 0 || i == 2 || i == 4
    requires ParseHex(Slice(e, i)).None?
    ensures ReadTriple(e).Err?
  {
  }

  lemma SliceHoldsNonHex(e: string, i: nat, k: nat)
    requires i <= k < |e| && k < i + 2 && !IsHexDigit(e[k])
    ensures ParseHex(Slice(e, i)).None?
  {
    assert Slice(e, i)[k - i] == e[k];
  }

  /** The characters `hex_to_rgb` reads, at most the first six, are hex digits. */
  predicate LeadingHex(t: string)
  {
    forall k :: 0 <= k < |t| && k < 6 ==> IsHexDigit(t[k])
  }

  /**
   * The whole characterisation: a colour reads exactly when its stripped
   * length is not 0, 1, 2 or 4 and the characters read are hex digits.
   */
  lemma ReadsExactly(color: string)
    ensures HexToRgb(color).Ok? <==> |StripHashes(color)| !in {0, 1, 2, 4} && LeadingHex(StripHashes(color))
  {
    var t := StripHashes(color);
    if !LeadingHex(t) {
      var k :| 0 <= k < |t| && k < 6 && !IsHexDigit(t[k]);
      NonHexFails(color, k);
    } else if |t| in {0, 1, 2, 4} {
      ShortLengthsFail(color);
    } else {
      LeadingHexReads(color);
    }
  }

  lemma LeadingHexReads(color: string)
    requires |StripHashes(color)| !in {0, 1, 2, 4} && LeadingHex(StripHashes(color))
    ensures HexToRgb(color).Ok?
  {
    var t := StripHashes(color);
    if |t| <= 6 {
      assert AllHex(t);
      HexDigitsSucceed(color);
    } else {
      FirstSixOnly(color);
      FirstSixReads(t);
    }
  }

  lemma FirstSixReads(t: string)
    requires |t| > 6 && LeadingHex(t)
    ensures HexToRgb(t[..6]).Ok?
  {
    var u := t[..6];
    assert AllHex(u);
    StripHashesKeeps(u);
    HexTripleReads(u);
  }

  /** Two lower-case hex digits for a component in 0..255. */
  function HexChar(v: nat): (c: char)
    requires v < 16
    ensures IsHexDigit(c) && DigitValue(c) == v
  {
    "0123456789abcdef"[v]
  }

  function Hex2(v: nat): (s: string)
    requires v < 256
    ensures |s| == 2 && AllHex(s) && DigitsValue(s) == v
  {
    var s := [HexChar(v / 16), HexChar(v % 16)];
    PairValue(s[0], s[1]);
    s
  }

  /** The "#rrggbb" spelling of an RGB triple. */
  function FormatHex(c: Color): (s: string)
    requires c.Rgb? && 0 <= c.r < 256 && 0 <= c.g < 256 && 0 <= c.b < 256
    ensures |s| == 7 && s[0] == '#' && AllHex(s[1..])
  {
    "#" + Hex2(c.r) + Hex2(c.g) + Hex2(c.b)
  }

  /** Reading back the "#rrggbb" spelling of any triple gives the triple. */
  lemma FormatHexRoundTrip(c: Color)
    requires c.Rgb? && 0 <= c.r < 256 && 0 <= c.g < 256 && 0 <= c.b < 256
    ensures HexToRgb(FormatHex(c)) == Ok(c)
  {
    var s := FormatHex(c);
    var t := s[1..];
    assert t == Hex2(c.r) + Hex2(c.g) + Hex2(c.b);
    StripHashesKeeps(t);
    assert StripHashes(s) == t;
    assert Slice(t, 0) == Hex2(c.r);
    assert Slice(t, 2) == Hex2(c.g);
    assert Slice(t, 4) == Hex2(c.b);
  }

  // ---------------------------------------------------------------------
  // Colour resolution at the start of generate_qr_code
  // ---------------------------------------------------------------------

  /** The colour entries of the options dictionary; `None` is a missing key. */
  datatype ColorOptions = ColorOptions(
    fgColor: Option<string>,
    bgColor: Option<string>,
    transparentBg: bool,
    gradientStart: Option<string>,
    gradientEnd: Option<string>)

  datatype ResolvedColors = ResolvedColors(fg: Color, bg: Color, gradientStart: Color, gradientEnd: Color)

  const Black := "#000000"
  const White := "#ffffff"

  /** The fully transparent background that `transparent_bg` substitutes. */
  const Transparent := Rgba(0, 0, 0, 0)

  /**
   * Foreground, background, gradient start and gradient end are read in that
   * order, each defaulting when missing; the first malformed one aborts, even
   * when transparency or a solid fill means its value is never used.
   */
  function ResolveColors(o: ColorOptions): (r: Result<ResolvedColors, ColorError>)
    ensures r.Ok? <==>
      HexToRgb(GetOr(o.fgColor, Black)).Ok? && HexToRgb(GetOr(o.bgColor, White)).Ok? &&
      HexToRgb(GetOr(o.gradientStart, Black)).Ok? && HexToRgb(GetOr(o.gradientEnd, White)).Ok?
    ensures r.Ok? && o.transparentBg ==> r.value.bg == Transparent
    ensures r.Ok? && !o.transparentBg ==> r.value.bg == HexToRgb(GetOr(o.bgColor, White)).value
    ensures r.Ok? ==> r.value.fg == HexToRgb(GetOr(o.fgColor, Black)).value
    ensures r.Ok? ==> r.value.gradientStart == HexToRgb(GetOr(o.gradientStart, Black)).value
    ensures r.Ok? ==> r.value.gradientEnd == HexToRgb(GetOr(o.gradientEnd, White)).value
  {
    match HexToRgb(GetOr(o.fgColor, Black))
    case Err(e) => Err(e)
    case Ok(fg) =>
      match HexToRgb(GetOr(o.bgColor, White))
      case Err(e) => Err(e)
      case Ok(parsedBg) =>
        var bg := if o.transparentBg then Transparent else parsedBg;
        match HexToRgb(GetOr(o.gradientStart, Black))
        case Err(e) => Err(e)
        case Ok(start) =>
          match HexToRgb(GetOr(o.gradientEnd, White))
          case Err(e) => Err(e)
          case Ok(end) => Ok(ResolvedColors(fg, bg, start, end))
  }

  /** With every colour missing the defaults are black on white, gradient black to white. */
  lemma DefaultColors()
    ensures ResolveColors(ColorOptions(None, None, false, None, None))
         == Ok(ResolvedColors(Rgb(0, 0, 0), Rgb(255, 255, 255), Rgb(0, 0, 0), Rgb(255, 255, 255)))
  {
    BlackAndWhite();
  }

  lemma BlackAndWhite()
    ensures HexToRgb(Black) == Ok(Rgb(0, 0, 0))
    ensures HexToRgb(White) == Ok(Rgb(255, 255, 255))
  {
    assert Hex2(0) == "00";
    assert Hex2(255) == "ff";
    assert FormatHex(Rgb(0, 0, 0)) == Black;
    assert FormatHex(Rgb(255, 255, 255)) == White;
    FormatHexRoundTrip(Rgb(0, 0, 0));
    FormatHexRoundTrip(Rgb(255, 255, 255));
  }

  /**
   * With `transparent_bg` set, the background colour string makes no
   * difference as long as it parses; a malformed one still aborts.
   */
  lemma TransparencyIgnoresBackground(o: ColorOptions, bg1: string, bg2: string)
    requires o.transparentBg
    requires HexToRgb(bg1).Ok? && HexToRgb(bg2).Ok?
    ensures ResolveColors(o.(bgColor := Some(bg1))) == ResolveColors(o.(bgColor := Some(bg2)))
  {
  }

  lemma MalformedColorAborts(o: ColorOptions)
    requires HexToRgb(GetOr(o.bgColor, White)).Err?
          || HexToRgb(GetOr(o.gradientStart, Black)).Err?
          || HexToRgb(GetOr(o.gradientEnd, White)).Err?
    ensures ResolveColors(o).Err?
    ensures ResolveColors(o.(transparentBg := true)).Err?
  {
  }
}

=== FILE: logo.dfy ===
/**
 * Logo geometry in `generate_qr_code`: the side of the box the logo is
 * shrunk into, and where the shrunk logo is pasted for each position name.
 * The symbol's pixel size and the logo's size after shrinking come from the
 * imaging library and are inputs here.
 *
 * Python's `//` by a positive divisor rounds toward negative infinity, which
 * is exactly Dafny's `/` on `int` for a positive divisor.
 */
module LogoGeometry {
  import opened Wrappers

  /** `int(x / 100)`: true division, then truncation toward zero. */
  function TruncDiv100(x: int): (q: int)
    ensures x >= 0 ==> 0 <= 100 * q <= x < 100 * q + 100
    ensures x < 0 ==> x <= 100 * q <= 0 && 100 * q - 100 < x
  {
    if x >= 0 then x / 100 else -((-x) / 100)
  }

  /** `int(qr_size * logo_size / 100)`: the side of the box the logo is shrunk into. */
  function LogoBoxSide(qrSize: int, logoSize: int): (side: int)
    ensures qrSize * logoSize >= 0 ==> 0 <= 100 * side <= qrSize * logoSize < 100 * side + 100
    ensures qrSize * logoSize < 0 ==> qrSize * logoSize <= 100 * side <= 0 && 100 * side - 100 < qrSize * logoSize
  {
    TruncDiv100(qrSize * logoSize)
  }

  /** The position names with a branch of their own. */
  const Positions := {"center", "top-left", "top-right", "bottom-left", "bottom-right"}

  /** The error raised at the paste when no branch bound `position`. */
  datatype LogoError = UnboundPosition(name: string)

  /** The symbol's margin for the corner positions: `qr_size // 10`. */
  function Inset(qrSize: int): (m: int)
    ensures 10 * m <= qrSize < 10 * m + 10
  {
    qrSize / 10
  }

  /**
   * The paste position of a `w` by `h` logo for `logo_position` (missing reads
   * as "center"); any other name leaves the position unbound.
   */
  function LogoPosition(qrSize: int, w: int, h: int, position: Option<string>): (r: Result<(int, int), LogoError>)
    ensures r.Err? <==> GetOr(position, "center") !in Positions
    ensures r.Err? ==> r.error == UnboundPosition(GetOr(position, "center"))
    ensures r.Ok? && GetOr(position, "center") == "center" ==>
      0 <= (qrSize - w) - 2 * r.value.0 <= 1 && 0 <= (qrSize - h) - 2 * r.value.1 <= 1
    ensures r.Ok? && GetOr(position, "center") == "top-left" ==>
      r.value == (Inset(qrSize), Inset(qrSize))
    ensures r.Ok? && GetOr(position, "center") == "top-right" ==>
      r.value.0 + w == qrSize - Inset(qrSize) && r.value.1 == Inset(qrSize)
    ensures r.Ok? && GetOr(position, "center") == "bottom-left" ==>
      r.value.0 == Inset(qrSize) && r.value.1 + h == qrSize - Inset(qrSize)
    ensures r.Ok? && GetOr(position, "center") == "bottom-right" ==>
      r.value.0 + w == qrSize - Inset(qrSize) && r.value.1 + h == qrSize - Inset(qrSize)
  {
    var name := GetOr(position, "center");
    var m := Inset(qrSize);
    if name == "center" then Ok(((qrSize - w) / 2, (qrSize - h) / 2))
    else if name == "top-left" then Ok((m, m))
    else if name == "top-right" then Ok((qrSize - w - m, m))
    else if name == "bottom-left" then Ok((m, qrSize - h - m))
    else if name == "bottom-right" then Ok((qrSize - w - m, qrSize - h - m))
    else Err(UnboundPosition(name))
  }

  // ---------------------------------------------------------------------
  // Properties
  // ---------------------------------------------------------------------

  /** For non-negative sizes the box side is the floor of the percentage, and at most 100% fits. */
  lemma BoxSideNonNegative(qrSize: nat, logoSize: nat)
    ensures LogoBoxSide(qrSize, logoSize) == (qrSize * logoSize) / 100
    ensures logoSize <= 100 ==> 0 <= LogoBoxSide(qrSize, logoSize) <= qrSize
  {
    var x := qrSize * logoSize;
    assert x >= 0;
    if logoSize <= 100 {
      assert qrSize * 100 - x == qrSize * (100 - logoSize);
      var q := LogoBoxSide(qrSize, logoSize);
      assert q * 100 <= qrSize * 100;
    }
  }

  /** A negative percentage truncates toward zero, not down: -1% of 150 is -1, not -2. */
  lemma BoxSideNegativeTruncates()
    ensures LogoBoxSide(150, -1) == -1
  {
  }

  /**
   * On a symbol of at least 100 pixels the box has side 0 exactly when the
   * percentage is 0, and a side of 0 or less exactly when the percentage is.
   */
  lemma ZeroBoxOnlyAtZero(qrSize: int, logoSize: int)
    requires qrSize >= 100
    ensures LogoBoxSide(qrSize, logoSize) == 0 <==> logoSize == 0
    ensures LogoBoxSide(qrSize, logoSize) <= 0 <==> logoSize <= 0
  {
    if logoSize >= 1 {
      assert qrSize * logoSize >= qrSize * 1;
    } else if logoSize <= -1 {
      assert qrSize * logoSize <= qrSize * -1;
    }
  }

  /** A 50% logo gets a box of half the symbol, rounded down. */
  lemma HalfSizeBox(qrSize: nat)
    ensures LogoBoxSide(qrSize, 50) == qrSize / 2
  {
    assert qrSize * 50 == (qrSize / 2) * 100 + (qrSize % 2) * 50;
  }

  /**
   * A logo no larger than its box, at up to 90% of the symbol, lies wholly
   * inside the symbol at every recognised position.
   */
  lemma LogoInsideSymbol(qrSize: nat, logoSize: nat, w: nat, h: nat, position: Option<string>)
    requires logoSize <= 90
    requires w <= LogoBoxSide(qrSize, logoSize) && h <= LogoBoxSide(qrSize, logoSize)
    requires LogoPosition(qrSize, w, h, position).Ok?
    ensures var (x, y) := LogoPosition(qrSize, w, h, position).value;
      0 <= x && x + w <= qrSize && 0 <= y && y + h <= qrSize
  {
    BoxWithinInset(qrSize, logoSize);
  }

  lemma BoxWithinInset(qrSize: nat, logoSize: nat)
    requires logoSize <= 90
    ensures LogoBoxSide(qrSize, logoSize) <= qrSize - Inset(qrSize)
  {
    var box := LogoBoxSide(qrSize, logoSize);
    var x := qrSize * logoSize;
    ProductBounds(qrSize, logoSize);
    var a, b := qrSize / 10, qrSize % 10;
    assert 100 * box <= x <= 900 * a + 90 * b;
    assert 100 * box < 100 * (9 * a + b + 1);
  }

  lemma ProductBounds(q: nat, l: nat)
    requires l <= 90
    ensures 0 <= q * l <= 900 * (q / 10) + 90 * (q % 10)
  {
    assert q * 90 - q * l == q * (90 - l);
    assert q * (90 - l) >= 0;
    assert q == 10 * (q / 10) + q % 10;
  }
}

=== FILE: payload.dfy ===
/**
 * The payload formatter: the data string encoded in the symbol, computed
 * from `qr_type` and the raw content by the same block in `preview` and in
 * `download`.
 *
 * JSON decoding is not modelled: the formatter is handed a `parse` function
 * that turns the content into what the multilink loop sees.
 */
module PayloadFormatter {
  import opened Wrappers

  /** One element of `links`: `None` is a missing key; `Some` holds the text the f-string prints. */
  datatype Link = Link(title: Option<string>, url: Option<string>)

  /**
   * What decoding the multilink content yields. `Unparsed` covers every case
   * the bare `except` catches: invalid JSON, a value without `.get`, a `links`
   * value whose elements are not objects. `Parsed(None)` is a document
   * without a `links` key.
   */
  datatype MultilinkDoc = Unparsed | Parsed(links: Option<seq<Link>>)

  /** `link.get('title', 'Link')` */
  function TitleText(l: Link): (t: string)
    ensures l.title.None? ==> t == "Link"
    ensures l.title.Some? ==> t == l.title.value
  {
    GetOr(l.title, "Link")
  }

  /** `link.get('url', '')` */
  function UrlText(l: Link): (u: string)
    ensures l.url.None? ==> u == ""
    ensures l.url.Some? ==> u == l.url.value
  {
    GetOr(l.url, "")
  }

  /** The text appended for one link: title, ':', url, ';'; nothing in it is escaped. */
  function Entry(l: Link): (e: string)
    ensures |e| == |TitleText(l)| + |UrlText(l)| + 2 && e[|e| - 1] == ';'
  {
    TitleText(l) + ":" + UrlText(l) + ";"
  }

  /** The entries of all links, in order; each link contributes at least its two separators. */
  function Entries(links: seq<Link>): (r: string)
    ensures r == "" <==> links == []
    decreases |links|
  {
    if links == [] then "" else Entries(links[..|links| - 1]) + Entry(links[|links| - 1])
  }

  const MecardPrefix := "MECARD:"

  predicate StartsWith(s: string, prefix: string)
  {
    |prefix| <= |s| && s[..|prefix|] == prefix
  }

  /** `content.startswith(('http://', 'https://'))` */
  predicate HasScheme(s: string)
    ensures HasScheme(s) <==>
      7 <= |s| && s[..4] == "http" && (s[4..7] == "://" || (8 <= |s| && s[4..8] == "s://"))
  {
    StartsWith(s, "http://") || StartsWith(s, "https://")
  }

  /**
   * The data string for `qr_type`: a URL gets "http://" unless it already
   * has a web scheme, a phone number gets "tel:", multilink content becomes
   * a MECARD record (or stays as it is when it cannot be read), and every
   * other type, a missing one included, passes through.
   */
  function FormatPayload(qrType: Option<string>, content: string, parse: string -> MultilinkDoc): (data: string)
    ensures qrType == Some("url") ==> HasScheme(data)
    ensures qrType == Some("url") && HasScheme(content) ==> data == content
    ensures qrType == Some("url") && !HasScheme(content) ==> data == "http://" + content
    ensures qrType == Some("phone") ==> data == "tel:" + content
    ensures qrType == Some("multilink") && parse(content).Unparsed? ==> data == content
    ensures qrType == Some("multilink") && parse(content).Parsed? ==>
      StartsWith(data, MecardPrefix) && data == MecardPrefix + Entries(GetOr(parse(content).links, []))
    ensures qrType !in {Some("url"), Some("phone"), Some("multilink")} ==> data == content
  {
    if qrType == Some("url") then
      var prefixed := "http://" + content;
      assert prefixed[..7] == "http://";
      if HasScheme(content) then content else prefixed
    else if qrType == Some("phone") then "tel:" + content
    else if qrType == Some("multilink") then
      match parse(content)
      case Unparsed => content
      case Parsed(links) =>
        var data := MecardPrefix + Entries(GetOr(links, []));
        assert data[..|MecardPrefix|] == MecardPrefix;
        data
    else content
  }

  /**
   * The block as `preview` and `download` run it: an if/elif chain whose
   * multilink branch appends one entry per link to `formatted_content`.
   */
  method ComputePayload(qrType: Option<string>, content: string, parse: string -> MultilinkDoc)
    returns (data: string)
    ensures data == FormatPayload(qrType, content, parse)
  {
    if qrType == Some("url") {
      data := if HasScheme(content) then content else "http://" + content;
    } else if qrType == Some("phone") {
      data := "tel:" + content;
    } else if qrType == Some("multilink") {
      match parse(content)
      case Unparsed =>
        data := content;
      case Parsed(found) =>
        var links := GetOr(found, []);
        var formatted := MecardPrefix;
        for i := 0 to |links|
          invariant formatted == MecardPrefix + Entries(links[..i])
        {
          assert links[..i + 1][..i] == links[..i];
          formatted := formatted + Entry(links[i]);
        }
        assert links[..|links|] == links;
        data := formatted;
    } else {
      data := content;
    }
  }

  // ---------------------------------------------------------------------
  // Properties
  // ---------------------------------------------------------------------

  /** Formatting a URL twice is formatting it once. */
  lemma UrlIdempotent(content: string, parse: string -> MultilinkDoc)
    ensures FormatPayload(Some("url"), FormatPayload(Some("url"), content, parse), parse)
         == FormatPayload(Some("url"), content, parse)
  {
  }

  /** Entries of a concatenation are the concatenation of the entries. */
  lemma {:induction false} EntriesAppend(a: seq<Link>, b: seq<Link>)
    ensures Entries(a + b) == Entries(a) + Entries(b)
    decreases |b|
  {
    if b == [] {
      assert a + b == a;
    } else {
      var init, last := b[..|b| - 1], b[|b| - 1];
      var ab := a + b;
      assert ab[..|ab| - 1] == a + init;
      assert ab[|ab| - 1] == last;
      assert Entries(ab) == Entries(a + init) + Entry(last);
      assert Entries(b) == Entries(init) + Entry(last);
      EntriesAppend(a, init);
    }
  }

  /** One entry is the title, a ':', the url and a ';', with nothing escaped. */
  lemma EntryFields(l: Link)
    ensures var e, t := Entry(l), TitleText(l);
      |e| == |t| + |UrlText(l)| + 2 && e[..|t|] == t && e[|t|] == ':' &&
      e[|t| + 1..|e| - 1] == UrlText(l) && e[|e| - 1] == ';'
  {
    var e, t := Entry(l), TitleText(l);
    assert e[..|t|] == t;
    assert e[|t| + 1..|e| - 1] == UrlText(l);
  }

  lemma EntriesCons(l: Link, rest: seq<Link>)
    ensures Entries([l] + rest) == Entry(l) + Entries(rest)
  {
    EntriesAppend([l], rest);
    assert [l][..0] == [];
  }

  /** Multilink content with two titled links, as in the form's example. */
  lemma TwoLinksExample(content: string, parse: string -> MultilinkDoc)
    requires parse(content)
          == Parsed(Some([Link(Some("A"), Some("http://a")), Link(Some("B"), Some("http://b"))]))
    ensures FormatPayload(Some("multilink"), content, parse) == "MECARD:A:http://a;B:http://b;"
  {
    var links := [Link(Some("A"), Some("http://a")), Link(Some("B"), Some("http://b"))];
    assert FormatPayload(Some("multilink"), content, parse) == MecardPrefix + Entries(links);
    TwoLinksRecord();
  }

  lemma TwoLinksRecord()
    ensures MecardPrefix + Entries([Link(Some("A"), Some("http://a")), Link(Some("B"), Some("http://b"))])
         == "MECARD:A:http://a;B:http://b;"
  {
    var a, b := Link(Some("A"), Some("http://a")), Link(Some("B"), Some("http://b"));
    EntriesOfTwo(a, b);
    assert Entry(a) == "A:http://a;";
    assert Entry(b) == "B:http://b;";
  }

  lemma EntriesOfTwo(a: Link, b: Link)
    ensures Entries([a, b]) == Entry(a) + Entry(b)
  {
    assert [a, b][..1] == [a];
    assert [a][..0] == [];
  }

  /** Missing keys: no `links` gives a bare prefix, no title "Link", no url an empty string. */
  lemma MissingKeysDefault(content: string, parse: string -> MultilinkDoc)
    ensures parse(content) == Parsed(None) ==> FormatPayload(Some("multilink"), content, parse) == MecardPrefix
    ensures parse(content) == Parsed(Some([Link(None, None)])) ==>
      FormatPayload(Some("multilink"), content, parse) == "MECARD:Link:;"
  {
    if parse(content) == Parsed(Some([Link(None, None)])) {
      EntriesCons(Link(None, None), []);
      assert [Link(None, None)] + [] == [Link(None, None)];
    }
  }

  /** Because nothing is escaped, different links can give the same record. */
  lemma SeparatorsNotEscaped()
    ensures Entries([Link(Some("a:b"), Some("c"))]) == Entries([Link(Some("a"), Some("b:c"))])
  {
    EntriesCons(Link(Some("a:b"), Some("c")), []);
    EntriesCons(Link(Some("a"), Some("b:c")), []);
    assert [Link(Some("a:b"), Some("c"))] + [] == [Link(Some("a:b"), Some("c"))];
    assert [Link(Some("a"), Some("b:c"))] + [] == [Link(Some("a"), Some("b:c"))];
  }

  // ---------------------------------------------------------------------
  // Reading a record back
  // ---------------------------------------------------------------------

  function IndexOf(s: string, c: char): (r: Option<nat>)
    ensures r.Some? ==> r.value < |s| && s[r.value] == c && c !in s[..r.value]
    ensures r.None? ==> c !in s
  {
    if s == [] then None
    else if s[0] == c then Some(0)
    else match IndexOf(s[1..], c)
      case None => None
      case Some(i) =>
        assert s[..i + 1] == [s[0]] + s[1..][..i];
        Some(i + 1)
  }

  /** Splits a record body into (title, url) pairs: a title ends at ':', a url at ';'. */
  function DecodeEntries(s: string): Option<seq<(string, string)>>
    decreases |s|
  {
    if s == [] then Some([])
    else match IndexOf(s, ':')
      case None => None
      case Some(i) =>
        var rest := s[i + 1..];
        match IndexOf(rest, ';')
        case None => None
        case Some(j) =>
          match DecodeEntries(rest[j + 1..])
          case None => None
          case Some(tail) => Some([(s[..i], rest[..j])] + tail)
  }

  /** The (title, url) texts that the record prints for each link. */
  function Rendered(links: seq<Link>): seq<(string, string)>
  {
    seq(|links|, k requires 0 <= k < |links| => (TitleText(links[k]), UrlText(links[k])))
  }

  /** No title holds ':' and no url holds ';'. */
  predicate Unambiguous(links: seq<Link>)
  {
    forall k :: 0 <= k < |links| ==> ':' !in TitleText(links[k]) && ';' !in UrlText(links[k])
  }

  lemma IndexOfAfter(p: string, c: char, rest: string)
    requires c !in p
    ensures IndexOf(p + [c] + rest, c) == Some(|p|)
  {
    var s := p + [c] + rest;
    assert s[|p|] == c;
    assert s[..|p|] == p;
  }

  /** One entry at the front of a record is read off and the rest decoded. */
  lemma DecodeFirst(t: string, u: string, e: string)
    requires ':' !in t && ';' !in u
    ensures DecodeEntries(t + [':'] + (u + [';'] + e))
         == if DecodeEntries(e).Some? then Some([(t, u)] + DecodeEntries(e).value) else None
  {
    var s := t + [':'] + (u + [';'] + e);
    IndexOfAfter(t, ':', u + [';'] + e);
    assert s[..|t|] == t;
    var rest := s[|t| + 1..];
    assert rest == u + [';'] + e;
    IndexOfAfter(u, ';', e);
    assert rest[..|u|] == u;
    assert rest[|u| + 1..] == e;
  }

  /** When no separator appears inside a field, the record reads back as the links' texts. */
  lemma {:induction false} DecodeRoundTrip(links: seq<Link>)
    requires Unambiguous(links)
    ensures DecodeEntries(Entries(links)) == Some(Rendered(links))
    decreases |links|
  {
    if links != [] {
      var l, tail := links[0], links[1..];
      SplitFirst(links);
      DecodeRoundTrip(tail);
      DecodeFirst(TitleText(l), UrlText(l), Entries(tail));
    } else {
      assert Rendered(links) == [];
    }
  }

  lemma SplitFirst(links: seq<Link>)
    requires links != [] && Unambiguous(links)
    ensures Unambiguous(links[1..])
    ensures ':' !in TitleText(links[0]) && ';' !in UrlText(links[0])
    ensures Entries(links) == TitleText(links[0]) + [':'] + (UrlText(links[0]) + [';'] + Entries(links[1..]))
    ensures Rendered(links) == [(TitleText(links[0]), UrlText(links[0]))] + Rendered(links[1..])
  {
    UnambiguousTail(links);
    EntriesFirst(links);
    RenderedFirst(links);
  }

  lemma EntriesFirst(links: seq<Link>)
    requires links != []
    ensures Entries(links) == TitleText(links[0]) + [':'] + (UrlText(links[0]) + [';'] + Entries(links[1..]))
  {
    var l, tail := links[0], links[1..];
    assert links == [l] + tail;
    EntriesCons(l, tail);
    var t, u, e := TitleText(l), UrlText(l), Entries(tail);
    assert Entry(l) + e == t + [':'] + (u + [';'] + e);
  }

  lemma RenderedFirst(links: seq<Link>)
    requires links != []
    ensures Rendered(links) == [(TitleText(links[0]), UrlText(links[0]))] + Rendered(links[1..])
  {
  }

  lemma UnambiguousTail(links: seq<Link>)
    requires links != [] && Unambiguous(links)
    ensures Unambiguous(links[1..])
  {
    var tail := links[1..];
    forall k | 0 <= k < |tail|
      ensures ':' !in TitleText(tail[k]) && ';' !in UrlText(tail[k])
    {
      assert tail[k] == links[k + 1];
    }
  }
}

=== FILE: pipeline.dfy ===
/**
 * `generate_qr_code` without the library calls: what it resolves and
 * computes before and around the rendering (symbol size, colours, drawers,
 * mask, logo box and position, caption), and the two request handlers with
 * the session and the upload folder they share.
 *
 * The encoding library decides the symbol's version, or fails when the data
 * fits no version; that decision is the parameter `fit`. A saved logo file is
 * a function giving the size the logo has once shrunk into a box of a given
 * side, or nothing when the imaging library cannot open or shrink it. Paths
 * are the file names in the upload folder.
 */
module QrPipeline {
  import opened Wrappers
  import opened ColorResolver
  import opened IntParsing
  import opened StyleSelection
  import opened LogoGeometry
  import opened PayloadFormatter

  /** Pixels per module, and the quiet border in modules. */
  const BoxSize := 10
  const Border := 4

  /** Modules across a symbol of the given version, the border on both sides included. */
  function ModulesAcross(version: nat): nat
  {
    17 + 4 * version + 2 * Border
  }

  /**
   * The pixel side of a symbol of the given version. A tenth of it, the
   * corner inset of the logo, is exactly one pixel per module across.
   */
  function SymbolPixelSize(version: nat): (px: nat)
    ensures Inset(px) == ModulesAcross(version)
    ensures px >= 250
  {
    var px := ModulesAcross(version) * BoxSize;
    assert px == 10 * ModulesAcross(version);
    px
  }

  /**
   * A logo file: the width and height `thumbnail` leaves it for a box of the
   * given side, or `None` when `Image.open` or `thumbnail` raises (a file
   * that is not an image fails for every box).
   */
  type Logo = int -> Option<(int, int)>

  /** The entries of the options dictionary that the rendering reads; `None` is a missing key. */
  datatype Options = Options(
    colors: ColorOptions,
    dotShape: Option<string>,
    eyeShape: Option<string>,
    gradientType: Option<string>,
    logoSize: Option<FormValue>,
    logoPosition: Option<string>,
    logoText: Option<string>,
    logoPath: Option<string>)

  /** Where the logo goes: the box it was shrunk into, its size, and its top-left corner. */
  datatype LogoPlacement = LogoPlacement(box: int, width: int, height: int, x: int, y: int)

  /** The caption text and its fill, the foreground colour. */
  datatype Caption = Caption(text: string, fill: Color)

  /** Everything handed to the library and to the overlay steps: the data, the symbol's pixel side, and the styling. */
  datatype Plan = Plan(
    data: string,
    size: int,
    mask: Mask,
    moduleDrawer: Drawer,
    eyeDrawer: Drawer,
    logo: Option<LogoPlacement>,
    caption: Option<Caption>)

  /**
   * The encoder's failure on data too long for any version, a malformed
   * colour, a logo the imaging library cannot open or shrink, or an unbound
   * logo position.
   */
  datatype RenderError = DataTooLong | BadColor(colorError: ColorError) | BadImage | BadLogo(logoError: LogoError)

  /** `safe_int(options.get('logo_size', 20))` */
  function LogoPercent(o: Options): (p: int)
    ensures o.logoSize.None? ==> p == 20
    ensures o.logoSize.Some? && o.logoSize.value.Number? ==> p == o.logoSize.value.n
    ensures o.logoSize.Some? && o.logoSize.value.Text? && !IsNumeral(o.logoSize.value.s) ==> p == 0
  {
    SafeInt(GetOr(o.logoSize, Number(20)), 0)
  }

  /** The logo the render opens: the file at `logo_path`, when the key is set and the file exists. */
  function LogoFor(o: Options, uploads: map<string, Logo>): (r: Option<Logo>)
    ensures r.Some? <==> o.logoPath.Some? && o.logoPath.value in uploads
    ensures r.Some? ==> r.value == uploads[o.logoPath.value]
  {
    if o.logoPath.Some? && o.logoPath.value in uploads then Some(uploads[o.logoPath.value]) else None
  }

  /**
   * Opening the logo and shrinking it into a box of side `box`. `thumbnail`
   * divides the box's width by its height before anything else, so a box of
   * side 0 raises ZeroDivisionError; a negative side reaches the resize,
   * which raises ValueError. Both happen whatever the file holds.
   */
  function Shrunk(logo: Logo, box: int): (r: Option<(int, int)>)
    ensures box <= 0 ==> r.None?
    ensures box > 0 ==> r == logo(box)
  {
    if box <= 0 then None else logo(box)
  }

  /**
   * The rendering plan for `data`. The encoder runs first and fails on data
   * that fits no version; then the colours are resolved and a malformed one
   * aborts; the logo is placed only when its file exists, and then a file
   * that cannot be opened or shrunk aborts, and so does an unknown position.
   */
  function RenderPlan(data: string, o: Options, fit: string -> Option<nat>, uploads: map<string, Logo>)
    : (r: Result<Plan, RenderError>)
    ensures fit(data).None? ==> r == Err(DataTooLong)
    ensures fit(data).Some? && ResolveColors(o.colors).Err? ==> r == Err(BadColor(ResolveColors(o.colors).error))
    ensures r.Ok? <==> fit(data).Some? && ResolveColors(o.colors).Ok? &&
                       (LogoFor(o, uploads).None? ||
                        (Shrunk(LogoFor(o, uploads).value, LogoBoxSide(SymbolPixelSize(fit(data).value), LogoPercent(o))).Some? &&
                         GetOr(o.logoPosition, "center") in Positions))
    ensures r.Err? && fit(data).Some? && ResolveColors(o.colors).Ok? ==>
      LogoFor(o, uploads).Some? &&
      var shrunk := Shrunk(LogoFor(o, uploads).value, LogoBoxSide(SymbolPixelSize(fit(data).value), LogoPercent(o)));
      r.error == if shrunk.None? then BadImage else BadLogo(UnboundPosition(GetOr(o.logoPosition, "center")))
    ensures r.Ok? ==> r.value.data == data && r.value.size == SymbolPixelSize(fit(data).value)
  {
    match fit(data)
    case None => Err(DataTooLong)
    case Some(version) =>
      var size := SymbolPixelSize(version);
      match ResolveColors(o.colors)
      case Err(e) => Err(BadColor(e))
      case Ok(c) =>
        var mask := MaskFor(o.gradientType, c);
        var dots := ModuleDrawerFor(o.dotShape);
        var eyes := EyeDrawerFor(o.eyeShape);
        var text := GetOr(o.logoText, "");
        var caption := if text != "" then Some(Caption(text, c.fg)) else None;
        match LogoFor(o, uploads)
        case None => Ok(Plan(data, size, mask, dots, eyes, None, caption))
        case Some(shrink) =>
          var box := LogoBoxSide(size, LogoPercent(o));
          match Shrunk(shrink, box)
          case None => Err(BadImage)
          case Some((w, h)) =>
            match LogoPosition(size, w, h, o.logoPosition)
            case Err(e) => Err(BadLogo(e))
            case Ok(p) => Ok(Plan(data, size, mask, dots, eyes, Some(LogoPlacement(box, w, h, p.0, p.1)), caption))
  }

  // ---------------------------------------------------------------------
  // Properties of the plan
  // ---------------------------------------------------------------------

  /**
   * A successful plan carries the selected mask and drawers, the caption in
   * the foreground colour exactly when there is text, and the logo exactly
   * when its file exists: shrunk into the box for the percentage and pasted
   * where its position name puts it.
   */
  lemma PlanFollowsOptions(data: string, o: Options, fit: string -> Option<nat>, uploads: map<string, Logo>)
    requires RenderPlan(data, o, fit, uploads).Ok?
    ensures var plan, c := RenderPlan(data, o, fit, uploads).value, ResolveColors(o.colors).value;
      plan.mask == MaskFor(o.gradientType, c) &&
      plan.moduleDrawer == ModuleDrawerFor(o.dotShape) &&
      plan.eyeDrawer == EyeDrawerFor(o.eyeShape) &&
      (plan.caption.Some? <==> GetOr(o.logoText, "") != "") &&
      (plan.caption.Some? ==> plan.caption.value == Caption(GetOr(o.logoText, ""), c.fg)) &&
      (plan.logo.Some? <==> LogoFor(o, uploads).Some?)
    ensures var plan := RenderPlan(data, o, fit, uploads).value;
      plan.logo.Some? ==>
        var p := plan.logo.value;
        p.box == LogoBoxSide(plan.size, LogoPercent(o)) &&
        Shrunk(LogoFor(o, uploads).value, p.box) == Some((p.width, p.height)) &&
        LogoPosition(plan.size, p.width, p.height, o.logoPosition) == Ok((p.x, p.y))
  {
  }

  /** With `transparent_bg` the mask's background is fully transparent, whatever the mask. */
  lemma TransparentBackground(data: string, o: Options, fit: string -> Option<nat>, uploads: map<string, Logo>)
    requires o.colors.transparentBg
    requires RenderPlan(data, o, fit, uploads).Ok?
    ensures RenderPlan(data, o, fit, uploads).value.mask.back == Transparent
  {
    var c := ResolveColors(o.colors).value;
    assert c.bg == Transparent;
    assert MaskFor(o.gradientType, c).back == Transparent;
  }

  /** A malformed background aborts the render even when transparency and a solid fill never use it. */
  lemma UnusedColorStillAborts(data: string, o: Options, fit: string -> Option<nat>, uploads: map<string, Logo>)
    requires o.colors.transparentBg && o.gradientType == None
    requires HexToRgb(GetOr(o.colors.bgColor, White)).Err?
    ensures RenderPlan(data, o, fit, uploads).Err?
    ensures fit(data).Some? ==> RenderPlan(data, o, fit, uploads).error.BadColor?
  {
    MalformedColorAborts(o.colors);
  }

  /**
   * The position is read only when the logo file exists; then an unknown
   * position aborts, unless opening or shrinking the file aborted first.
   */
  lemma PositionMattersOnlyWithLogo(data: string, o: Options, fit: string -> Option<nat>, uploads: map<string, Logo>, file: string)
    requires fit(data).Some? && ResolveColors(o.colors).Ok?
    requires GetOr(o.logoPosition, "center") !in Positions
    requires file in uploads
    ensures RenderPlan(data, o.(logoPath := None), fit, uploads).Ok?
    ensures RenderPlan(data, o.(logoPath := Some(file)), fit, uploads)
         == if Shrunk(uploads[file], LogoBoxSide(SymbolPixelSize(fit(data).value), LogoPercent(o))).None? then Err(BadImage)
            else Err(BadLogo(UnboundPosition(GetOr(o.logoPosition, "center"))))
  {
    var with, without := o.(logoPath := Some(file)), o.(logoPath := None);
    assert LogoFor(without, uploads).None?;
    assert LogoFor(with, uploads) == Some(uploads[file]);
    assert LogoPercent(with) == LogoPercent(o);
  }

  /**
   * On a symbol of at least 250 pixels the logo box has side 0 exactly when
   * the percentage is 0, as it is for a `logo_size` that is not a numeral,
   * and a side of 0 or less exactly when the percentage is; then any
   * existing logo file aborts the render.
   */
  lemma NonPositivePercentAborts(data: string, o: Options, fit: string -> Option<nat>, uploads: map<string, Logo>)
    requires fit(data).Some? && ResolveColors(o.colors).Ok?
    requires LogoFor(o, uploads).Some?
    ensures LogoBoxSide(SymbolPixelSize(fit(data).value), LogoPercent(o)) == 0 <==> LogoPercent(o) == 0
    ensures LogoBoxSide(SymbolPixelSize(fit(data).value), LogoPercent(o)) <= 0 <==> LogoPercent(o) <= 0
    ensures LogoPercent(o) <= 0 ==> RenderPlan(data, o, fit, uploads) == Err(BadImage)
  {
    ZeroBoxOnlyAtZero(SymbolPixelSize(fit(data).value), LogoPercent(o));
  }

  /**
   * A logo at the default 20% that stays within its box is placed in the
   * top-left corner, inset by a tenth of the symbol, and lies inside it.
   */
  lemma DefaultLogoTopLeft(data: string, o: Options, fit: string -> Option<nat>, uploads: map<string, Logo>)
    requires fit(data).Some? && ResolveColors(o.colors).Ok?
    requires LogoPercent(o) == 20 && o.logoPosition == Some("top-left")
    requires o.logoPath.Some? && o.logoPath.value in uploads
    requires var qr := SymbolPixelSize(fit(data).value);
      var shrunk := uploads[o.logoPath.value](LogoBoxSide(qr, 20));
      shrunk.Some? && 0 <= shrunk.value.0 <= LogoBoxSide(qr, 20) && 0 <= shrunk.value.1 <= LogoBoxSide(qr, 20)
    ensures var qr := SymbolPixelSize(fit(data).value);
      var r := RenderPlan(data, o, fit, uploads);
      r.Ok? && r.value.logo.Some? &&
      var p := r.value.logo.value;
      p.x == p.y == qr / 10 && p.box == LogoBoxSide(qr, 20) &&
      p.x + p.width <= qr && p.y + p.height <= qr
  {
    var qr := SymbolPixelSize(fit(data).value);
    var box := LogoBoxSide(qr, 20);
    assert box >= 50;
    var (w, h) := uploads[o.logoPath.value](box).value;
    LogoInsideSymbol(qr, 20, w, h, Some("top-left"));
  }

  // ---------------------------------------------------------------------
  // The two request handlers and what they share
  // ---------------------------------------------------------------------

  /** A request as `preview` keeps it: `qr_type`, `qr_content` and `qr_options`. */
  datatype Request = Request(qrType: Option<string>, content: string, options: Options)

  /** The session: the last request `preview` rendered, and `logo_filename`, the last logo uploaded. */
  datatype Session = Session(request: Option<Request>, logoFile: Option<string>)

  const EmptySession := Session(None, None)

  /** A logo the form uploaded, with the fresh name it is saved under. */
  datatype Upload = Upload(name: string, logo: Logo)

  /** The upload folder once the uploaded logo, if any, is saved. */
  function Saved(uploads: map<string, Logo>, upload: Option<Upload>): (r: map<string, Logo>)
    ensures upload.None? ==> r == uploads
    ensures upload.Some? ==> r.Keys == uploads.Keys + {upload.value.name} && r[upload.value.name] == upload.value.logo
    ensures forall k :: k in uploads && (upload.None? || k != upload.value.name) ==> r[k] == uploads[k]
  {
    if upload.Some? then uploads[upload.value.name := upload.value.logo] else uploads
  }

  /** The upload folder once the session's logo, if any, is removed. */
  function Removed(uploads: map<string, Logo>, file: Option<string>): (r: map<string, Logo>)
    ensures file.None? ==> r == uploads
    ensures file.Some? ==> r.Keys == uploads.Keys - {file.value}
    ensures forall k :: k in r ==> r[k] == uploads[k]
  {
    if file.Some? then uploads - {file.value} else uploads
  }

  /**
   * The options `preview` renders and stores: the form's, with `logo_size`
   * already converted and `logo_path` set only for an upload of this request.
   * Converting the stored size again changes nothing.
   */
  function PreviewOptions(form: Options, upload: Option<Upload>): (o: Options)
    ensures o.logoPath == if upload.Some? then Some(upload.value.name) else None
    ensures o.logoSize.Some? && o.logoSize.value.Number?
    ensures LogoPercent(o) == LogoPercent(form)
    ensures o.(logoSize := form.logoSize, logoPath := form.logoPath) == form
  {
    form.(logoSize := Some(Number(LogoPercent(form))),
          logoPath := if upload.Some? then Some(upload.value.name) else None)
  }

  /** What `preview` renders: the formatted payload with the preview's options, after the upload is saved. */
  function PreviewPlan(req: Request, upload: Option<Upload>, parse: string -> MultilinkDoc,
                       fit: string -> Option<nat>, uploads: map<string, Logo>): Result<Plan, RenderError>
  {
    RenderPlan(FormatPayload(req.qrType, req.content, parse), PreviewOptions(req.options, upload), fit, Saved(uploads, upload))
  }

  /**
   * The session after `preview`: `logo_filename` is replaced only by an
   * upload, before the render; the request is stored only when the render succeeded.
   */
  function PreviewSession(s: Session, req: Request, upload: Option<Upload>, rendered: bool): (r: Session)
    ensures r.logoFile == if upload.Some? then Some(upload.value.name) else s.logoFile
    ensures rendered ==> r.request == Some(Request(req.qrType, req.content, PreviewOptions(req.options, upload)))
    ensures !rendered ==> r.request == s.request
  {
    Session(if rendered then Some(Request(req.qrType, req.content, PreviewOptions(req.options, upload))) else s.request,
            if upload.Some? then Some(upload.value.name) else s.logoFile)
  }

  /** The options `download` renders with: the stored ones, with `logo_path` set from `logo_filename` when that file exists. */
  function DownloadOptions(req: Request, s: Session, uploads: map<string, Logo>): (o: Options)
    ensures o.logoPath == if s.logoFile.Some? && s.logoFile.value in uploads then s.logoFile else req.options.logoPath
    ensures o.(logoPath := req.options.logoPath) == req.options
  {
    if s.logoFile.Some? && s.logoFile.value in uploads then req.options.(logoPath := s.logoFile) else req.options
  }

  /** What `download` renders from the session; nothing when no request is stored. */
  function DownloadPlan(s: Session, parse: string -> MultilinkDoc, fit: string -> Option<nat>, uploads: map<string, Logo>)
    : Option<Result<Plan, RenderError>>
  {
    match s.request
    case None => None
    case Some(req) =>
      Some(RenderPlan(FormatPayload(req.qrType, req.content, parse), DownloadOptions(req, s, uploads), fit, uploads))
  }

  /**
   * The body both handlers share: format the payload with the if/elif block,
   * then call `generate_qr_code` on it.
   */
  method Generate(qrType: Option<string>, content: string, o: Options, parse: string -> MultilinkDoc,
                  fit: string -> Option<nat>, uploads: map<string, Logo>)
    returns (r: Result<Plan, RenderError>)
    ensures r == RenderPlan(FormatPayload(qrType, content, parse), o, fit, uploads)
  {
    var data := ComputePayload(qrType, content, parse);
    r := RenderPlan(data, o, fit, uploads);
  }

  /** The Flask session of one client and the upload folder. */
  class Server {
    var session: Session
    var uploads: map<string, Logo>

    /** A client with no session yet, on the upload folder as it stands. */
    constructor(folder: map<string, Logo>)
      ensures session == EmptySession && uploads == folder
    {
      session := EmptySession;
      uploads := folder;
    }

    /**
     * `preview`: save an uploaded logo and record its name, format the
     * payload, render, and store the request when the render succeeded.
     */
    method Preview(req: Request, upload: Option<Upload>, parse: string -> MultilinkDoc, fit: string -> Option<nat>)
      returns (r: Result<Plan, RenderError>)
      modifies this
      ensures r == PreviewPlan(req, upload, parse, fit, old(uploads))
      ensures uploads == Saved(old(uploads), upload)
      ensures session == PreviewSession(old(session), req, upload, r.Ok?)
    {
      var folder, s := Saved(uploads, upload), session;
      if upload.Some? {
        s := s.(logoFile := Some(upload.value.name));
      }
      var o := PreviewOptions(req.options, upload);
      r := Generate(req.qrType, req.content, o, parse, fit, folder);
      assert r == PreviewPlan(req, upload, parse, fit, uploads);
      if r.Ok? {
        s := s.(request := Some(Request(req.qrType, req.content, o)));
      }
      assert s == PreviewSession(old(session), req, upload, r.Ok?);
      session, uploads := s, folder;
    }

    /**
     * `download`: render the stored request with the session's logo, then
     * remove the logo file and clear the session; a failed render changes nothing.
     */
    method Download(parse: string -> MultilinkDoc, fit: string -> Option<nat>)
      returns (r: Option<Result<Plan, RenderError>>)
      modifies this
      ensures r == DownloadPlan(old(session), parse, fit, old(uploads))
      ensures session == if r.Some? && r.value.Ok? then EmptySession else old(session)
      ensures uploads == if r.Some? && r.value.Ok? then Removed(old(uploads), old(session).logoFile) else old(uploads)
    {
      if session.request.None? {
        return None;
      }
      var req, folder, file := session.request.value, uploads, session.logoFile;
      var plan := Generate(req.qrType, req.content, DownloadOptions(req, session, folder), parse, fit, folder);
      r := Some(plan);
      assert r == DownloadPlan(session, parse, fit, uploads);
      if plan.Ok? {
        session, uploads := EmptySession, Removed(folder, file);
      }
    }
  }

  // ---------------------------------------------------------------------
  // Properties of the hand-off
  // ---------------------------------------------------------------------

  /**
   * After a successful preview that uploaded its own logo, or left no earlier
   * logo file behind, the download renders exactly what the preview rendered:
   * the same data, symbol size, styling and logo placement.
   */
  lemma DownloadRepeatsPreview(s: Session, uploads: map<string, Logo>, req: Request, upload: Option<Upload>,
                               parse: string -> MultilinkDoc, fit: string -> Option<nat>)
    requires upload.Some? || s.logoFile.None? || s.logoFile.value !in uploads
    requires PreviewPlan(req, upload, parse, fit, uploads).Ok?
    ensures DownloadPlan(PreviewSession(s, req, upload, true), parse, fit, Saved(uploads, upload))
         == Some(PreviewPlan(req, upload, parse, fit, uploads))
  {
    var s' := PreviewSession(s, req, upload, true);
    var stored := s'.request.value;
    assert DownloadOptions(stored, s', Saved(uploads, upload)) == PreviewOptions(req.options, upload);
  }

  /**
   * A preview without an upload leaves an earlier `logo_filename` in the
   * session: the preview draws no logo, while the download draws the earlier
   * one, or aborts when that file cannot be opened or shrunk into its box (a
   * `logo_size` that is not a numeral gives a box of 0) or when the position
   * is unknown.
   */
  lemma StaleLogoDrawn(s: Session, uploads: map<string, Logo>, req: Request, parse: string -> MultilinkDoc,
                       fit: string -> Option<nat>, file: string)
    requires s.logoFile == Some(file) && file in uploads
    requires PreviewPlan(req, None, parse, fit, uploads).Ok?
    ensures PreviewPlan(req, None, parse, fit, uploads).value.logo.None?
    ensures var d := DownloadPlan(PreviewSession(s, req, None, true), parse, fit, uploads);
      var box := LogoBoxSide(PreviewPlan(req, None, parse, fit, uploads).value.size, LogoPercent(req.options));
      var shrunk := Shrunk(uploads[file], box);
      var position := GetOr(req.options.logoPosition, "center");
      d.Some? &&
      (shrunk.None? ==> d.value == Err(BadImage)) &&
      (shrunk.Some? && position !in Positions ==> d.value == Err(BadLogo(UnboundPosition(position)))) &&
      (shrunk.Some? && position in Positions ==>
         d.value.Ok? && d.value.value.logo.Some? &&
         var p := d.value.value.logo.value;
         p.box == box && shrunk == Some((p.width, p.height)))
  {
    var o := PreviewOptions(req.options, None);
    var s' := PreviewSession(s, req, None, true);
    var o' := DownloadOptions(s'.request.value, s', uploads);
    assert o' == o.(logoPath := Some(file));
    assert LogoFor(o', uploads) == Some(uploads[file]);
  }
}

=== FILE: safe_int.dfy ===
/**
 * `safe_int`: integer conversion that falls back to a default instead of
 * raising. Text converts when it is an ASCII decimal numeral with an
 * optional sign and at most 4300 digits; anything else, and a missing
 * value, gives the default.
 */
module IntParsing {

  /** What `safe_int` can be handed: `None`, an int already, or form text. */
  datatype FormValue = Absent | Number(n: int) | Text(s: string)

  predicate IsDigit(c: char)
  {
    '0' <= c <= '9'
  }

  predicate AllDigits(s: string)
  {
    forall i :: 0 <= i < |s| ==> IsDigit(s[i])
  }

  /** The value of a string of decimal digits, most significant first. */
  function DecimalValue(s: string): nat
    requires AllDigits(s)
    decreases |s|
  {
    if s == [] then 0 else DecimalValue(s[..|s| - 1]) * 10 + (s[|s| - 1] as int - '0' as int)
  }

  /**
   * The most digits `int()` converts from decimal text; a longer numeral
   * raises ValueError (`sys.int_info.default_max_str_digits`, Python 3.11
   * and the 2022 security releases before it).
   */
  const MaxStrDigits := 4300

  /** An optional '+' or '-' followed by one to `MaxStrDigits` ASCII digits. */
  predicate IsNumeral(s: string)
    ensures IsNumeral(s) ==> 0 < |s| <= MaxStrDigits + 1 && AllDigits(s[1..])
    ensures IsNumeral(s) && IsDigit(s[0]) ==> |s| <= MaxStrDigits
    ensures IsNumeral(s) ==> IsDigit(s[0]) || s[0] == '+' || s[0] == '-'
  {
    if |s| > 0 && (s[0] == '+' || s[0] == '-') then 1 < |s| <= MaxStrDigits + 1 && AllDigits(s[1..])
    else 0 < |s| <= MaxStrDigits && AllDigits(s)
  }

  /** The value of a numeral: negative only after '-', and the digits' value in size. */
  function NumeralValue(s: string): (v: int)
    requires IsNumeral(s)
    ensures s[0] == '-' ==> v <= 0
    ensures s[0] != '-' ==> v >= 0
    ensures IsDigit(s[0]) ==> v == DecimalValue(s)
    ensures !IsDigit(s[0]) ==> v == (if s[0] == '-' then -1 else 1) * DecimalValue(s[1..])
  {
    if s[0] == '-' then -(DecimalValue(s[1..]) as int)
    else if s[0] == '+' then DecimalValue(s[1..])
    else DecimalValue(s)
  }

  /**
   * `safe_int(value, default)`: never fails. An int is returned as it is, a
   * numeral gives its value, and `None` (TypeError) or any other text
   * (ValueError) gives the default.
   */
  function SafeInt(value: FormValue, default: int): (r: int)
    ensures value.Absent? ==> r == default
    ensures value.Number? ==> r == value.n
    ensures value.Text? && !IsNumeral(value.s) ==> r == default
  {
    match value
    case Absent => default
    case Number(n) => n
    case Text(s) => if IsNumeral(s) then NumeralValue(s) else default
  }

  // ---------------------------------------------------------------------
  // Decimal rendering, the inverse of the conversion
  // ---------------------------------------------------------------------

  function DigitChar(d: nat): (c: char)
    requires d < 10
    ensures IsDigit(c) && c as int - '0' as int == d
  {
    (d + '0' as int) as char
  }

  /** Python's `str(n)` for a non-negative n: no sign, no leading zeros. */
  function ShowNat(n: nat): (s: string)
    ensures |s| > 0 && AllDigits(s)
    decreases n
  {
    if n < 10 then [DigitChar(n)] else ShowNat(n / 10) + [DigitChar(n % 10)]
  }

  /** Python's `str(n)`. */
  function ShowInt(n: int): string
  {
    if n < 0 then "-" + ShowNat(-n) else ShowNat(n)
  }

  lemma {:induction false} ShowNatValue(n: nat)
    ensures DecimalValue(ShowNat(n)) == n
    decreases n
  {
    if n >= 10 {
      var s := ShowNat(n);
      assert s[..|s| - 1] == ShowNat(n / 10);
      ShowNatValue(n / 10);
    }
  }

  /**
   * Every int of at most `MaxStrDigits` digits, written in decimal, converts
   * back to itself; a longer one gives the default.
   */
  lemma SafeIntRoundTrip(n: int, default: int)
    ensures var digits := if n < 0 then ShowNat(-n) else ShowNat(n);
      SafeInt(Text(ShowInt(n)), default) == if |digits| <= MaxStrDigits then n else default
  {
    var m: nat := if n < 0 then -n else n;
    var d := ShowNat(m);
    SignedDigits(d, default);
    ShowNatValue(m);
    if n < 0 {
      assert ShowInt(n) == "-" + d;
    } else {
      assert ShowInt(n) == d;
    }
  }

  /** Digits, bare or after a sign, convert exactly within the limit. */
  lemma SignedDigits(d: string, default: int)
    requires |d| > 0 && AllDigits(d)
    ensures SafeInt(Text(d), default) == if |d| <= MaxStrDigits then DecimalValue(d) else default
    ensures SafeInt(Text("-" + d), default) == if |d| <= MaxStrDigits then -(DecimalValue(d) as int) else default
    ensures SafeInt(Text("+" + d), default) == SafeInt(Text(d), default)
  {
    assert ("-" + d)[1..] == d && ("+" + d)[1..] == d;
    assert IsDigit(d[0]);
  }

  /** An explicit '+' sign changes nothing, within the digit limit and beyond it. */
  lemma PlusSignIgnored(n: nat, default: int)
    ensures SafeInt(Text("+" + ShowNat(n)), default) == SafeInt(Text(ShowNat(n)), default)
    ensures |ShowNat(n)| <= MaxStrDigits ==> SafeInt(Text("+" + ShowNat(n)), default) == n
  {
    SignedDigits(ShowNat(n), default);
    ShowNatValue(n);
  }

  /** Digits beyond the limit give the default, whatever they are: 4301 ones, for one. */
  lemma LongNumeralFallsBack(s: string, default: int)
    requires AllDigits(s) && |s| > MaxStrDigits
    ensures SafeInt(Text(s), default) == default
    ensures SafeInt(Text(seq(MaxStrDigits + 1, _ => '1')), default) == default
  {
    assert !IsDigit('+') && !IsDigit('-');
  }

  /** Text that is not a numeral gives the default, e.g. "abc", "" and "20.5". */
  lemma NonNumeralsFallBack(default: int)
    ensures SafeInt(Text("abc"), default) == default
    ensures SafeInt(Text(""), default) == default
    ensures SafeInt(Text("20.5"), default) == default
    ensures SafeInt(Text("-"), default) == default
    ensures SafeInt(Absent, default) == default
  {
    assert !IsDigit("abc"[0]);
    assert !IsDigit("20.5"[2]);
  }
}

=== FILE: style.dfy ===
/**
 * Style selection in `generate_qr_code`: the module drawer for `dot_shape`,
 * the eye drawer for `eye_shape` and the colour mask for `gradient_type`.
 * Every selector is total: an unknown or missing name gives the default.
 * The drawers and masks themselves belong to the rendering library and are
 * kept as tags.
 */
module StyleSelection {
  import opened Wrappers
  import opened ColorResolver

  /** The library's module drawers the source can pick. */
  datatype Drawer = Square | Circle | Rounded | VerticalBars | HorizontalBars

  /** The library's colour masks with the colours they are built from. */
  datatype Mask =
    | SolidFill(back: Color, front: Color)
    | HorizontalGradient(back: Color, left: Color, right: Color)
    | RadialGradient(back: Color, center: Color, edge: Color)

  /** The drawer for `dot_shape`; a missing key reads as "square". */
  function ModuleDrawerFor(dotShape: Option<string>): (d: Drawer)
    ensures d == Circle <==> dotShape == Some("circle")
    ensures d == Rounded <==> dotShape == Some("rounded")
    ensures d == VerticalBars <==> dotShape == Some("vertical")
    ensures d == HorizontalBars <==> dotShape == Some("horizontal")
  {
    var shape := GetOr(dotShape, "square");
    if shape == "circle" then Circle
    else if shape == "rounded" then Rounded
    else if shape == "vertical" then VerticalBars
    else if shape == "horizontal" then HorizontalBars
    else Square
  }

  /** The drawer for `eye_shape`: only circle and rounded are recognised. */
  function EyeDrawerFor(eyeShape: Option<string>): (d: Drawer)
    ensures d in {Square, Circle, Rounded}
    ensures d == Circle <==> eyeShape == Some("circle")
    ensures d == Rounded <==> eyeShape == Some("rounded")
  {
    var shape := GetOr(eyeShape, "square");
    if shape == "circle" then Circle
    else if shape == "rounded" then Rounded
    else Square
  }

  /**
   * The mask for `gradient_type` (missing reads as "none"): "linear" runs from
   * the gradient start on the left to its end on the right, "radial" from the
   * centre to the edge, anything else is a solid foreground on the background.
   */
  function MaskFor(gradientType: Option<string>, c: ResolvedColors): (m: Mask)
    ensures m.back == c.bg
    ensures m.HorizontalGradient? <==> gradientType == Some("linear")
    ensures m.RadialGradient? <==> gradientType == Some("radial")
    ensures m.HorizontalGradient? ==> m.left == c.gradientStart && m.right == c.gradientEnd
    ensures m.RadialGradient? ==> m.center == c.gradientStart && m.edge == c.gradientEnd
    ensures m.SolidFill? ==> m.front == c.fg
  {
    var kind := GetOr(gradientType, "none");
    if kind == "linear" then HorizontalGradient(c.bg, c.gradientStart, c.gradientEnd)
    else if kind == "radial" then RadialGradient(c.bg, c.gradientStart, c.gradientEnd)
    else SolidFill(c.bg, c.fg)
  }

  // ---------------------------------------------------------------------
  // Names and defaults
  // ---------------------------------------------------------------------

  /** The form value that selects each module drawer. */
  function DotShapeName(d: Drawer): string
  {
    match d
    case Square => "square"
    case Circle => "circle"
    case Rounded => "rounded"
    case VerticalBars => "vertical"
    case HorizontalBars => "horizontal"
  }

  /** Every module drawer is reachable, by its own name. */
  lemma DotShapeNamesSelect(d: Drawer)
    ensures ModuleDrawerFor(Some(DotShapeName(d))) == d
  {
  }

  /** Every eye drawer is one of the module drawers and reachable by the same name. */
  lemma EyeShapesAreModuleShapes(d: Drawer)
    requires d in {Square, Circle, Rounded}
    ensures EyeDrawerFor(Some(DotShapeName(d))) == d
  {
  }

  /** Unknown names, like a missing one, give the square drawer and the solid mask. */
  lemma UnknownNamesDefault(name: string, c: ResolvedColors)
    requires name !in {"circle", "rounded", "vertical", "horizontal", "linear", "radial"}
    ensures ModuleDrawerFor(Some(name)) == ModuleDrawerFor(None) == ModuleDrawerFor(Some("square")) == Square
    ensures EyeDrawerFor(Some(name)) == EyeDrawerFor(None) == Square
    ensures MaskFor(Some(name), c) == MaskFor(None, c) == SolidFill(c.bg, c.fg)
  {
  }

  /** The eye drawer agrees with the module drawer except on the bar shapes. */
  lemma EyeAgreesWithModule(shape: Option<string>)
    requires shape != Some("vertical") && shape != Some("horizontal")
    ensures EyeDrawerFor(shape) == ModuleDrawerFor(shape)
  {
  }
}

=== FILE: wrappers.dfy ===
/** Option and Result, the model's stand-ins for Python's None and raised exceptions. */
module Wrappers {

  datatype Option<+T> = None | Some(value: T)

  /** The value, or `default` when absent: Python's `dict.get(key, default)`. */
  function GetOr<T>(o: Option<T>, default: T): T
  {
    match o
    case Some(v) => v
    case None => default
  }

  /** Either a value or the error that aborts the computation. */
  datatype Result<+T, +E> = Ok(value: T) | Err(error: E)
}
